=== FILE: README.md ===
# im-packets framing and codecs in Dafny

This project models the wire layer of the Go package `packets` of
bitstreamstudio/im-packets:

- **Primitive codecs.** Big-endian `uint16`/`uint32`, single bytes, and
  length-prefixed byte strings and strings.
- **The fixed header.** It is 12 bytes: the type byte, a 32-bit
  sequence number, version, format and flag bytes, and a plain 32-bit
  RemainingLength.
- **The registry of packet type tags 1–4** and the two factories that
  build packets from a tag.
- **`ReadPacket`.** It reads one framed packet from a stream.
- **Per-variant body codecs.** PINGREQ, PUBACK and PUBLISH, plus the
  LOGINREQ body as far as the registry and `ReadPacket` need it.

Modules, in dependency order:

| file | module | contents |
|---|---|---|
| bytes.dfy | `Bytes` | `byte`/`uint16`/`uint32`, `BigEndian` (the value a byte string denotes), `Zeros` |
| errors.dfy | `Errors` | the errors the layer returns and their Go messages (`%x` rendering included) |
| results.dfy | `Results` | `Option`, `Result` (usable with `:-`) |
| streams.dfy | `Streams` | a stream is the unread contents of a `bytes.Buffer`; `ReadFull` is `io.ReadFull`, `Read` is one `Buffer.Read` into a zeroed buffer |
| codec.dfy | `Codec` | encode/decode of `uint16`, `uint32`, bytes, byte strings, strings |
| utf8.dfy | `Utf8` | UTF-8, the bytes a Go string literal stands for, with a decoder that inverts it |
| header.dfy | `Header` | `FixedHeader`, `Pack`, `Unpack` |
| variants.dfy | `PingreqCodec`, `PubackCodec`, `PublishCodec`, `LoginreqCodec` | each variant's `Write` and `Unpack` |
| packets.dfy | `Packets` | the registry, the factories, the `Packet` union, `Write`/`Unpack` dispatch, `ReadPacket` |
| packet_laws.dfy | `PacketLaws` | whole-packet laws: write then read, how reading fails |
| vectors.dfy | `Vectors` | the concrete values the repository's tests fix |

A Go `io.Writer` call becomes a function that returns the emitted bytes.
Go's mutation of the packet during `Write` is modelled this way:
`Write` returns the packet as it stands afterwards, together with the
bytes.

A Go `string` is a byte sequence (`Codec.GoString`). Text enters only
through literals, whose bytes are their UTF-8 encoding (`Utf8.Encode`).

The json and protobuf codecs used by LOGINREQ are foreign code. They are
a parameter of type `LoginreqCodec.Marshaller`: a pair of functions
indexed by the encoding that the header's format byte selects.

### Behaviour of the code worth knowing
The model follows the code in each of these points. Only the second
contradicts a comment in the code itself; the others depart from what a
reader of the header layout or of the Go API would expect.
- **Headers may be cut short.** `FixedHeader.unpack` reads each field
  with one `Read`, and a `bytes.Buffer` read fails only when the buffer
  is already empty. So a header that stops anywhere after its ninth byte
  (the first RemainingLength byte) is accepted: the missing bytes of
  RemainingLength read as zeros. The model
  follows the code (`Header.Unpack`, `Header.UnpackTruncated`,
  `Vectors.TruncatedHeaderAccepted`), not the all-or-nothing reading of
  the header.
- **`ReadPacket` can return a packet and an error together.** Its doc
  comment says one of its two results is always nil. In fact an error
  from the variant's `Unpack` is returned together with the packet. The
  model follows the code (`PacketLaws.UnpackErrorKeepsPacket`).
- **PUBACK `Unpack` reports only the last read's error.** The error from
  the message-id read is overwritten by the return-code read's.
- **publish.go does not compile as written.** It assigns `len(Payload)`,
  an `int`, to the `uint32` RemainingLength, and `Copy` names a tag
  `Publish` that does not exist. The model takes the evident intent: a
  payload shorter than 2^32 bytes, stamped as its length.

## Model

| member | source | states |
|---|---|---|
| Streams.ReadFull | packets/packets.go:106-110 | io.ReadFull yields exactly n bytes and the remainder iff n bytes are available; otherwise EOF on an empty stream and UnexpectedEOF on a partial one |
| Streams.Read | packets/packets.go:213-221 | one Buffer.Read fails (EOF) exactly when the buffer is empty and bytes are asked for; a short read returns what there is, padded with zeros, and empties the stream |
| Streams.ReadShortBuffer | packets/packets.go:223-230 | a read of more bytes than remain in a non-empty buffer succeeds, with the missing tail zero |
| Codec.EncodeUint16 | packets/packets.go:241-245 | two bytes whose big-endian value is the number |
| Codec.EncodeUint32 | packets/packets.go:247-251 | four bytes whose big-endian value is the number |
| Codec.DecodeByte | packets/packets.go:213-221 | succeeds iff the stream is non-empty (else EOF), giving its first byte and the rest |
| Codec.DecodeUint16 | packets/packets.go:223-230 | succeeds iff the stream is non-empty; the value is the big-endian value of the first two bytes, zero-padded when only one is left |
| Codec.DecodeUint32 | packets/packets.go:232-239 | succeeds iff the stream is non-empty; the value is the big-endian value of the first four bytes, zero-padded when fewer are left |
| Codec.DecodeUint16Encoded | packets/packets.go:223-245 | decodeUint16 returns n and the rest exactly when the stream starts with encodeUint16(n) |
| Codec.DecodeUint32Encoded | packets/packets.go:232-251 | decodeUint32 returns n and the rest exactly when the stream starts with encodeUint32(n) |
| Codec.EncodeUint32OfBigEndian | packets/packets.go:232-251 | any four bytes are the encoding of the number they denote, so decode then encode is the identity |
| Codec.EncodeBytes | packets/packets.go:277-281 | a 2-byte big-endian length, the length taken mod 2^16, followed by the bytes unchanged |
| Codec.DecodeBytes | packets/packets.go:262-275 | fails (EOF) iff the stream is empty, or holds only the length prefix while declaring a non-empty field; otherwise returns exactly the declared number of bytes, zero-padded when the stream is short |
| Codec.DecodeBytesEncoded | packets/packets.go:262-281 | decodeBytes inverts encodeBytes for fields of at most 65535 bytes, leaving what follows |
| Codec.DecodeBytesEncodedWraps | packets/packets.go:277-281 | for longer fields the prefix wraps, so decoding stops after len mod 2^16 bytes |
| Codec.EncodeString | packets/packets.go:253-255 | the byte-string layout: a 2-byte big-endian length mod 2^16, then the string's bytes unchanged; decodeString gives back every string of at most 65535 bytes |
| Codec.DecodeString | packets/packets.go:257-260 | succeeds under exactly decodeBytes's conditions (else EOF); the string is the declared number of bytes after the prefix, zero-padded when the stream is short, and the rest follows it |
| Utf8.DecodeOfEncode | packets/packets_test.go:72-84 | the bytes of a string literal decode back to the literal |
| Utf8.DecodeIffEncode | packets/packets_test.go:72-84 | a byte string decodes to s exactly when it is s's UTF-8 encoding |
| Errors.Text | packets/packets.go:152 | the unsupported-type message is the fixed prefix followed by exactly Go's `%x` rendering of the tag: lower-case hex digits without leading zeros, denoting the tag |
| Errors.HexRoundTrip | packets/packets.go:152 | the `%x` rendering denotes the number and has no leading zero |
| Header.EmptyHeader | packets/packets.go:123-132 | a fresh packet's header carries only its type; every other field is Go's zero value |
| Header.Pack | packets/packets.go:179-188 | 12 bytes: type, big-endian sequence number, version, format, flag, big-endian RemainingLength |
| Header.Unpack | packets/packets.go:190-211 | succeeds iff at least 8 bytes follow the type byte (else EOF); keeps the given type byte; consumes 11 bytes, or everything when fewer are left |
| Header.UnpackOfPack | packets/packets.go:179-211 | unpack of pack restores every field and consumes exactly the 11 bytes after the type byte |
| Header.UnpackFields | packets/packets.go:190-211 | with eleven bytes present, each field is read from its own slice: sequence number bytes 0-3, version, format, flag, RemainingLength bytes 7-10 |
| Header.PackOfUnpack | packets/packets.go:179-211 | conversely, the 11 bytes unpack consumed are exactly what pack writes for the header it decoded |
| Header.UnpackTruncated | packets/packets.go:209-210 | with 8 to 10 bytes after the type byte the header is still accepted: MsqSeq, Version, Format and Flag are read as usual and RemainingLength takes zeros for the missing bytes |
| Packets.NewControlPacket | packets/packets.go:123-135 | a packet exactly for tags 1–4, of the variant the tag names, with only the type set |
| Packets.NewControlPacketWithHeader | packets/packets.go:140-153 | a packet exactly for tags 1–4, keeping the header verbatim; otherwise the unsupported-type error for that tag |
| Packets.FactoriesAgree | packets/packets.go:123-153 | the two factories accept the same tags and build the same variant, differing only in the header |
| Packets.Write | packets/packets.go:15-19 | emits the packed header then the variant's body: nothing for header-only packets (returned unchanged), id and code for PUBACK, the payload for PUBLISH, the marshalled login for LOGINREQ; non-header-only packets get RemainingLength restamped to the body length; only a LOGINREQ marshal can fail, and then Write returns that marshaller's own error |
| Packets.Unpack | packets/packets.go:15-19 | a body decoder never changes the header or the variant; header-only variants read nothing and never fail |
| Packets.UnpackVariants | packets/packets.go:15-19 | PUBACK, PUBLISH and LOGINREQ take their body fields, their error and the unread rest from their own decoder, under the packet's header |
| Packets.ReadPacket | packets/packets.go:87-117 | a missing packet always comes with an error, never the short-read one; a packet has the stream's type byte, a registered tag and exactly the header the header decoder produced (for 9 to 11 bytes too); when at least 12 bytes are present its header is the first 12 bytes and exactly 12 + RemainingLength bytes are consumed; with 9 to 11 bytes its RemainingLength is 0 and the whole stream is consumed |
| Packets.ReadAfterHeader | packets/packets.go:101-116 | after a decoded header: a missing packet always comes with an error, never the short-read one; a packet is registered and carries the decoded header; when at least 12 bytes are present that header is the first 12 bytes and exactly 12 + RemainingLength bytes are consumed; with fewer, RemainingLength is 0 and the whole stream is consumed |
| Packets.ReadBody | packets/packets.go:101-116 | an unknown tag gives the unsupported-type error and reads nothing; a body shorter than RemainingLength gives EOF or UnexpectedEOF and no packet |
| Packets.ReadPacketFraming | packets/packets.go:106-116 | what remains after a packet is the stream from offset 12 + RemainingLength |
| PingreqCodec.Write | packets/pingreq.go:17-22 | emits exactly the packed header, which unpacks to the same header with nothing left |
| PingreqCodec.Unpack | packets/pingreq.go:26-28 | reads nothing, changes nothing and never fails |
| PubackCodec.Write | packets/puback.go:19-28 | sets RemainingLength to 3 and changes nothing else; 15 bytes: the header, the big-endian message id, the return code |
| PubackCodec.Unpack | packets/puback.go:32-37 | no error iff the body has 3 bytes; the id is the first two, big-endian, and the code the third; on a short body the error is EOF, from the code read, and the id is zero-padded |
| PubackCodec.UnpackOfWrite | packets/puback.go:19-37 | unpacking the body Write emitted restores id and code and consumes exactly 3 bytes |
| PublishCodec.Write | packets/publish.go:19-27 | stamps RemainingLength with the payload length and changes nothing else; emits the header then the payload verbatim |
| PublishCodec.Unpack | packets/publish.go:31-41 | the payload is a fresh RemainingLength-byte buffer filled from the body and zero past its end; EOF iff the body is empty but bytes are expected; never the negative-length error |
| PublishCodec.UnpackOfWrite | packets/publish.go:19-41 | unpacking exactly the body Write emitted restores the payload |
| LoginreqCodec.EncodingOf | packets/loginreq.go:25-29 | JSON exactly when the format byte is 1, protobuf otherwise |
| LoginreqCodec.Write | packets/loginreq.go:22-38 | fails iff the marshal fails; otherwise stamps the body length truncated to 32 bits and emits header then body |
| LoginreqCodec.Unpack | packets/loginreq.go:42-59 | errors are EOF or the unmarshal error; an empty body gives EOF and leaves the fields; a full body is unmarshalled from exactly RemainingLength bytes |
| LoginreqCodec.UnpackOfWrite | packets/loginreq.go:22-59 | Write and Unpack pick the encoding from the same byte, so a round-tripping marshaller makes the body round-trip |
| PacketLaws.ReadHeaderOfPack | packets/packets.go:91-99 | after the packed header the header reader stands right after it |
| PacketLaws.ReadPacketOfPack | packets/packets.go:87-101 | once a packed header is read, ReadPacket goes on with the body alone |
| PacketLaws.ReadBodyOfFullBody | packets/packets.go:101-116 | once the header is known, a body of exactly RemainingLength bytes is read whole and unpacked, leaving the rest |
| PacketLaws.ReadFullPacket | packets/packets.go:101-116 | a registered header followed by RemainingLength bytes is unpacked from those bytes, leaving the rest of the stream |
| PacketLaws.HeaderOnlyThenRead | packets/pingreq.go:17-28 | a header-only packet with RemainingLength 0, written then read, comes back equal with no error |
| PacketLaws.LoginreqBodyOfWrite | packets/loginreq.go:42-59 | the body a round-tripping LOGINREQ Write emits is exactly RemainingLength bytes and unpacks, from the empty login ReadPacket builds, to the written login with no error and nothing left |
| PacketLaws.LoginreqThenRead | packets/loginreq_test.go:9-29 | a LOGINREQ whose marshaller round-trips is read back with its login and the stamped length |
| PacketLaws.WriteThenRead | packets/packets_test.go:38-59 | every registered packet that can be written is read back as written, with no error and the rest of the stream untouched |
| PacketLaws.NewPacketThenRead | packets/packets_test.go:38-59 | the four factory packets survive Write and ReadPacket; the header-only ones come back unchanged |
| PacketLaws.HeaderOnlyWithLengthUnreadable | packets/pingreq.go:17-22 | a header-only packet with non-zero RemainingLength is written as a bare header, so reading it alone fails with EOF |
| PacketLaws.ReadPacketFailures | packets/packets.go:87-113 | fewer than 9 bytes give EOF; an unknown tag gives the unsupported-type error; a short body gives EOF or UnexpectedEOF; with 9 to 11 bytes a nonzero zero-padded RemainingLength gives EOF; none returns a packet |
| PacketLaws.UnpackErrorKeepsPacket | packets/packets.go:115-116 | an unmarshal failure is returned together with the packet, and the stream is advanced past the body |
| Vectors.RegistryEntries | packets/packets_test.go:8-36 | tags 1–4 are PINGREQ, PINGRESP, DISCONNECT, LOGINREQ |
| Vectors.SmallIntegerVectors | packets/packets_test.go:61-70 | 0x56 decodes to 0x56; 22136 encodes to and decodes from 0x56 0x78 |
| Vectors.Uint32Vectors | packets/packets_test.go:86-103 | the eight 32-bit lengths and their four-byte encodings |
| Vectors.AsciiStringVector | packets/packets_test.go:73 | "foo" encodes as length 3 then its three bytes |
| Vectors.ByteOrderMarkVector | packets/packets_test.go:74 | U+FEFF encodes as length 3 then EF BB BF |
| Vectors.SupplementaryStringVector | packets/packets_test.go:75 | "A" U+2A6D4 encodes as length 5, counting UTF-8 bytes rather than characters |
| Vectors.UnsupportedTypeMessage | packets/packets.go:152 | tag 0xEE is reported as "unsupported packet type 0xee" |
| Vectors.TruncatedHeaderAccepted | packets/packets.go:190-211 | a PINGREQ type byte and eight zero bytes read as a Pingreq with no error |
| Vectors.TruncatedBodyRejected | packets/packets.go:106-110 | a LOGINREQ header announcing 5 body bytes followed by 2 gives UnexpectedEOF and no packet |

## Left out
- Continuation-bit (varint) lengths: the code has none; RemainingLength is always four plain bytes.
- `String()` renderings of headers and packets: diagnostic formatting only.
- ConnackReturnCodes, ConnErrors and the Connect return-code constants: static tables no modelled logic uses.
- `boolToByte`: an unused helper.
- `PublishPacket.Copy`: it names a tag that does not exist and that no factory handles, so it has no defined behaviour.
- Failures of the `io.Writer`: `Write` returns the bytes it would emit, so there is no writer to fail.
- Readers other than `bytes.Buffer`: a stream is the unread contents of a buffer, the reader the package's own tests and `ReadPacket`'s body decoding use. A network reader may return short reads the model does not have.
- pingresp.go and disconnect.go are not part of this model: PINGRESP and DISCONNECT are assumed to behave as PINGREQ, with no body.
- The json and protobuf libraries: an uninterpreted `LoginreqCodec.Marshaller`, with their error messages kept as text.
- LoginreqCodec.Unpack: on an unmarshal failure the login fields are taken to be left as they were, and a successful unmarshal is taken to overwrite every field; `json.Unmarshal` decodes into the existing packet, so fields absent from the JSON may keep earlier values. `ReadPacket` always starts from an empty login, where the two agree; LoginreqCodec.UnpackOfWrite states its result for any earlier login only under this assumption.
- PublishCodec.Write: requires a payload shorter than 2^32 bytes, because the source's conversion is missing and only that case has an evident meaning.
- Packets.Write: inherits that precondition for PUBLISH packets.
- Go's `%x` is modelled for the byte range the tag can take, as lower-case hex without leading zeros.

=== FILE: bytes.dfy ===
/** Fixed-width unsigned integers and the big-endian reading of a byte string. */
module Bytes {

  type byte = x: int | 0 <= x < 0x100
  type uint16 = x: int | 0 <= x < 0x1_0000
  type uint32 = x: int | 0 <= x < 0x1_0000_0000

  function Min(a: int, b: int): (m: int)
    ensures m <= a && m <= b && (m == a || m == b)
  {
    if a <= b then a else b
  }

  /** A freshly allocated Go byte slice of length n: every byte is zero. */
  function Zeros(n: nat): (z: seq<byte>)
    ensures |z| == n
    ensures forall i :: 0 <= i < n ==> z[i] == 0
  {
    seq(n, _ => 0)
  }

  /** The unsigned number a byte string denotes, most significant byte first
      (the reading of Go's binary.BigEndian). */
  function BigEndian(bs: seq<byte>): nat
  {
    if bs == [] then 0 else BigEndian(bs[..|bs| - 1]) * 0x100 + bs[|bs| - 1] as int
  }

  lemma BigEndianOfTwo(bs: seq<byte>)
    requires |bs| == 2
    ensures BigEndian(bs) == bs[0] as int * 0x100 + bs[1]
  {
    assert bs[..1][..0] == [];
    assert BigEndian(bs[..1]) == bs[0];
  }

  lemma BigEndianOfFour(bs: seq<byte>)
    requires |bs| == 4
    ensures BigEndian(bs) == bs[0] as int * 0x100_0000 + bs[1] as int * 0x1_0000 + bs[2] as int * 0x100 + bs[3]
  {
    assert bs[..3][..2] == bs[..2];
    BigEndianOfTwo(bs[..2]);
    assert BigEndian(bs[..3]) == (bs[0] as int * 0x100 + bs[1]) * 0x100 + bs[2];
  }
}

=== FILE: codec.dfy ===
/** The primitive field codecs of packets/packets.go: big-endian integers,
    single bytes, and 16-bit length-prefixed byte strings and strings. The
    decoders read with single bytes.Buffer reads, so a short buffer is
    zero-padded rather than rejected. */
module Codec {
  import opened Bytes
  import opened Errors
  import opened Results
  import opened Streams

  /** A Go string is an immutable byte sequence (UTF-8 when it comes from a literal). */
  type GoString = seq<byte>

  function EncodeUint16(n: uint16): (r: seq<byte>)
    ensures |r| == 2 && BigEndian(r) == n
  {
    var r := [n / 0x100, n % 0x100];
    BigEndianOfTwo(r);
    r
  }

  function EncodeUint32(n: uint32): (r: seq<byte>)
    ensures |r| == 4 && BigEndian(r) == n
  {
    var r := [n / 0x100_0000, n / 0x1_0000 % 0x100, n / 0x100 % 0x100, n % 0x100];
    BigEndianOfFour(r);
    r
  }

  /** The first `width` bytes of s as one Read sees them: missing bytes are zero. */
  function Padded(s: Stream, width: nat): (p: seq<byte>)
    ensures |p| == width
    ensures width <= |s| ==> p == s[..width]
  {
    var k := Min(width, |s|);
    s[..k] + Zeros(width - k)
  }

  function DecodeByte(s: Stream): (r: Result<(byte, Stream)>)
    ensures r.Ok? <==> |s| > 0
    ensures r.Err? ==> r.error == EOF
    ensures r.Ok? ==> [r.value.0] + r.value.1 == s
  {
    var read :- Read(s, 1);
    Ok((read.0[0], read.1))
  }

  function DecodeUint16(s: Stream): (r: Result<(uint16, Stream)>)
    ensures r.Ok? <==> |s| > 0
    ensures r.Err? ==> r.error == EOF
    ensures r.Ok? ==> r.value.0 == BigEndian(Padded(s, 2)) && r.value.1 == s[Min(2, |s|)..]
  {
    var read :- Read(s, 2);
    var buf := read.0;
    BigEndianOfTwo(buf);
    assert buf == Padded(s, 2);
    Ok((buf[0] as int * 0x100 + buf[1], read.1))
  }

  function DecodeUint32(s: Stream): (r: Result<(uint32, Stream)>)
    ensures r.Ok? <==> |s| > 0
    ensures r.Err? ==> r.error == EOF
    ensures r.Ok? ==> r.value.0 == BigEndian(Padded(s, 4)) && r.value.1 == s[Min(4, |s|)..]
  {
    var read :- Read(s, 4);
    var buf := read.0;
    BigEndianOfFour(buf);
    assert buf == Padded(s, 4);
    Ok((buf[0] as int * 0x100_0000 + buf[1] as int * 0x1_0000 + buf[2] as int * 0x100 + buf[3], read.1))
  }

  /** A uint16 is read back from exactly the two bytes that encode it. */
  lemma DecodeUint16Encoded(bs: seq<byte>, rest: Stream, n: uint16)
    requires |bs| == 2
    ensures DecodeUint16(bs + rest) == Ok((n, rest)) <==> bs == EncodeUint16(n)
  {
    var s := bs + rest;
    assert s[..2] == bs && s[2..] == rest;
    BigEndianOfTwo(bs);
    if DecodeUint16(s) == Ok((n, rest)) {
      assert bs[0] as int * 0x100 + bs[1] == n;
      assert bs == [n / 0x100, n % 0x100];
    }
  }

  /** Euclidean division undoes a multiply-and-add with a small remainder. */
  lemma DivModOf(q: int, r: int, d: int)
    requires d == 0x100 || d == 0x1_0000 || d == 0x100_0000
    requires 0 <= r < d
    ensures (q * d + r) / d == q && (q * d + r) % d == r
  {
    if d == 0x100 {
      assert (q * 0x100 + r) / 0x100 == q;
    } else if d == 0x1_0000 {
      assert (q * 0x1_0000 + r) / 0x1_0000 == q;
    } else {
      assert (q * 0x100_0000 + r) / 0x100_0000 == q;
    }
  }

  /** The four bytes of a uint32 are recovered by encoding the number they denote. */
  lemma EncodeUint32OfBigEndian(bs: seq<byte>)
    requires |bs| == 4
    ensures BigEndian(bs) < 0x1_0000_0000 && EncodeUint32(BigEndian(bs)) == bs
  {
    BigEndianOfFour(bs);
    var n := BigEndian(bs);
    var hi3 := bs[0] as int * 0x1_0000 + bs[1] as int * 0x100 + bs[2];
    var hi2 := bs[0] as int * 0x100 + bs[1];
    assert n == hi3 * 0x100 + bs[3];
    DivModOf(hi3, bs[3], 0x100);
    DivModOf(hi2, bs[2], 0x100);
    DivModOf(bs[0], bs[1], 0x100);
    assert n == hi2 * 0x1_0000 + (bs[2] as int * 0x100 + bs[3]);
    DivModOf(hi2, bs[2] as int * 0x100 + bs[3], 0x1_0000);
    assert n == bs[0] as int * 0x100_0000 + (bs[1] as int * 0x1_0000 + bs[2] as int * 0x100 + bs[3]);
    DivModOf(bs[0], bs[1] as int * 0x1_0000 + bs[2] as int * 0x100 + bs[3], 0x100_0000);
  }

  /** A uint32 is read back from exactly the four bytes that encode it. */
  lemma DecodeUint32Encoded(bs: seq<byte>, rest: Stream, n: uint32)
    requires |bs| == 4
    ensures DecodeUint32(bs + rest) == Ok((n, rest)) <==> bs == EncodeUint32(n)
  {
    var s := bs + rest;
    assert s[..4] == bs && s[4..] == rest;
    if DecodeUint32(s) == Ok((n, rest)) {
      EncodeUint32OfBigEndian(bs);
    }
  }

  /** A two-byte big-endian length, truncated to 16 bits as Go's
      `uint16(len(field))` does, then the bytes unchanged. */
  function EncodeBytes(field: seq<byte>): (r: seq<byte>)
    ensures |r| == 2 + |field| && r[2..] == field
    ensures BigEndian(r[..2]) == |field| % 0x1_0000
  {
    var r := EncodeUint16(|field| % 0x1_0000) + field;
    assert r[..2] == EncodeUint16(|field| % 0x1_0000);
    r
  }

  /** The length a field announces: its first two bytes, big-endian, as one Read sees them. */
  function DeclaredLength(s: Stream): (n: uint16)
    ensures 2 <= |s| ==> n == BigEndian(s[..2])
  {
    BigEndianOfTwo(Padded(s, 2));
    BigEndian(Padded(s, 2))
  }

  function DecodeBytes(s: Stream): (r: Result<(seq<byte>, Stream)>)
    ensures r.Ok? <==> |s| > 0 && (|s| > 2 || DeclaredLength(s) == 0)
    ensures r.Err? ==> r.error == EOF
    ensures r.Ok? ==> |r.value.0| == DeclaredLength(s)
    ensures 2 + DeclaredLength(s) <= |s| ==>
      r == Ok((s[2..2 + DeclaredLength(s)], s[2 + DeclaredLength(s)..]))
    ensures 2 < |s| < 2 + DeclaredLength(s) ==>
      r == Ok((s[2..] + Zeros(2 + DeclaredLength(s) - |s|), []))
    ensures 0 < |s| <= 2 && DeclaredLength(s) == 0 ==> r == Ok(([], []))
  {
    var length :- DecodeUint16(s);
    var field :- Read(length.1, length.0);
    if 2 + length.0 <= |s| then
      var n := length.0;
      assert length.1 == s[2..];
      assert field.0 == (field.0 + field.1)[..n] && field.1 == (field.0 + field.1)[n..];
      assert field.0 == s[2..2 + n] && field.1 == s[2 + n..];
      Ok(field)
    else
      Ok(field)
  }

  /** decodeBytes inverts encodeBytes whenever the length fits in 16 bits. */
  lemma DecodeBytesEncoded(field: seq<byte>, rest: Stream)
    requires |field| <= 0xFFFF
    ensures DecodeBytes(EncodeBytes(field) + rest) == Ok((field, rest))
  {
    var s := EncodeBytes(field) + rest;
    assert s[..2] == EncodeBytes(field)[..2];
    assert s[2..2 + |field|] == field;
    assert s[2 + |field|..] == rest;
  }

  /** Beyond 65535 bytes the prefix wraps modulo 2^16, so decoding splits the
      field at the wrapped length and leaves the remainder in the stream. */
  lemma DecodeBytesEncodedWraps(field: seq<byte>, rest: Stream)
    requires |field| > 0xFFFF
    ensures var m := |field| % 0x1_0000;
      DecodeBytes(EncodeBytes(field) + rest) == Ok((field[..m], field[m..] + rest))
  {
    var m := |field| % 0x1_0000;
    var s := EncodeBytes(field) + rest;
    assert s[..2] == EncodeBytes(field)[..2];
    assert s[2..2 + m] == field[..m];
    assert s[2 + m..] == field[m..] + rest;
  }

  /** encodeString: the string's bytes through the byte-string codec, so a
      16-bit length prefix (mod 2^16) and then the bytes unchanged. */
  function EncodeString(field: GoString): (r: seq<byte>)
    ensures |r| == 2 + |field| && r[2..] == field
    ensures BigEndian(r[..2]) == |field| % 0x1_0000
    ensures |field| <= 0xFFFF ==> DecodeString(r) == Ok((field, []))
  {
    var r := EncodeBytes(field);
    if |field| <= 0xFFFF then
      DecodeBytesEncoded(field, []);
      assert r + [] == r;
      r
    else
      r
  }

  /** decodeString: Go's `string(buf)` keeps the bytes as they are. */
  function DecodeString(s: Stream): (r: Result<(GoString, Stream)>)
    ensures r.Ok? <==> |s| > 0 && (|s| > 2 || DeclaredLength(s) == 0)
    ensures r.Err? ==> r.error == EOF
    ensures r.Ok? ==> |r.value.0| == DeclaredLength(s)
    ensures 2 + DeclaredLength(s) <= |s| ==>
      r == Ok((s[2..2 + DeclaredLength(s)], s[2 + DeclaredLength(s)..]))
    ensures 2 < |s| < 2 + DeclaredLength(s) ==>
      r == Ok((s[2..] + Zeros(2 + DeclaredLength(s) - |s|), []))
    ensures 0 < |s| <= 2 && DeclaredLength(s) == 0 ==> r == Ok(([], []))
  {
    DecodeBytes(s)
  }
}

=== FILE: errors.dfy ===
/** The errors the packet layer can report, and the text Go prints for each. */
module Errors {
  import opened Bytes

  datatype Error =
    | EOF                              // io.EOF: a read found the buffer empty
    | UnexpectedEOF                    // io.ErrUnexpectedEOF: io.ReadFull got some but not all bytes
    | UnsupportedPacketType(tag: byte) // the registry has no variant for this type byte
    | ShortRead                        // ReadPacket's "failed to read expected data"
    | NegativeLength                   // the Publish/Loginreq "payload length < 0" guard
    | EncodingFailure(cause: string)   // an error reported by the Loginreq body marshaller

  predicate IsHexDigit(c: char)
  {
    '0' <= c <= '9' || 'a' <= c <= 'f'
  }

  function HexDigit(d: nat): (c: char)
    requires d < 16
    ensures IsHexDigit(c)
  {
    if d < 10 then ('0' as int + d) as char else ('a' as int + d - 10) as char
  }

  function DigitValue(c: char): nat
    requires IsHexDigit(c)
  {
    if c <= '9' then c as int - '0' as int else c as int - 'a' as int + 10
  }

  /** Go's `%x` verb on an unsigned number: lower-case digits, no leading zeros. */
  function Hex(n: nat): (s: string)
    ensures |s| >= 1
    ensures forall i :: 0 <= i < |s| ==> IsHexDigit(s[i])
  {
    if n < 16 then [HexDigit(n)] else Hex(n / 16) + [HexDigit(n % 16)]
  }

  /** The number a string of lower-case hex digits denotes. */
  function HexValue(s: string): nat
    requires forall i :: 0 <= i < |s| ==> IsHexDigit(s[i])
  {
    if s == [] then 0 else HexValue(s[..|s| - 1]) * 16 + DigitValue(s[|s| - 1])
  }

  lemma DigitValueOfHexDigit(d: nat)
    requires d < 16
    ensures DigitValue(HexDigit(d)) == d
  {
  }

  /** `%x` is faithful (the digits denote n) and minimal (no leading zero unless n is 0). */
  lemma {:induction false} HexRoundTrip(n: nat)
    ensures HexValue(Hex(n)) == n
    ensures Hex(n)[0] == '0' ==> n == 0
  {
    if n < 16 {
      DigitValueOfHexDigit(n);
      assert Hex(n)[..0] == [];
    } else {
      HexRoundTrip(n / 16);
      var s := Hex(n);
      assert s[..|s| - 1] == Hex(n / 16);
      DigitValueOfHexDigit(n % 16);
      assert s[0] == Hex(n / 16)[0];
    }
  }

  /** The message Go's error value carries. */
  function Text(e: Error): (t: string)
    ensures e.UnsupportedPacketType? ==>
      && |t| > 26
      && t[..26] == "unsupported packet type 0x"
      && (forall i :: 26 <= i < |t| ==> IsHexDigit(t[i]))
      && t[26..] == Hex(e.tag)
      && HexValue(t[26..]) == e.tag
  {
    match e
    case EOF => "EOF"
    case UnexpectedEOF => "unexpected EOF"
    case UnsupportedPacketType(tag) =>
      HexRoundTrip(tag);
      var t := "unsupported packet type 0x" + Hex(tag);
      assert t[26..] == Hex(tag);
      t
    case ShortRead => "failed to read expected data"
    case NegativeLength => "error unpacking publish, payload length < 0"
    case EncodingFailure(cause) => cause
  }
}

=== FILE: header.dfy ===
/** The 12-byte fixed header of packets/packets.go: type byte, 32-bit
    sequence number, version, format and flag bytes, and a plain 32-bit
    RemainingLength (no continuation-bit length). */
module Header {
  import opened Bytes
  import opened Errors
  import opened Results
  import opened Streams
  import opened Codec

  datatype FixedHeader = FixedHeader(
    messageType: byte,
    msqSeq: uint32,
    version: byte,
    format: byte,
    flag: byte,
    remainingLength: uint32)

  const HeaderSize: nat := 12

  /** The header as a freshly constructed packet carries it: Go zero values
      except for the message type. */
  function EmptyHeader(messageType: byte): (h: FixedHeader)
    ensures h.messageType == messageType && h.remainingLength == 0
    ensures h.msqSeq == 0 && h.version == 0 && h.format == 0 && h.flag == 0
  {
    FixedHeader(messageType, 0, 0, 0, 0, 0)
  }

  function Pack(h: FixedHeader): (r: seq<byte>)
    ensures |r| == HeaderSize
    ensures r[0] == h.messageType
    ensures BigEndian(r[1..5]) == h.msqSeq
    ensures r[5] == h.version && r[6] == h.format && r[7] == h.flag
    ensures BigEndian(r[8..12]) == h.remainingLength
  {
    var r := [h.messageType] + EncodeUint32(h.msqSeq)
      + [h.version, h.format, h.flag] + EncodeUint32(h.remainingLength);
    assert r[1..5] == EncodeUint32(h.msqSeq);
    assert r[8..12] == EncodeUint32(h.remainingLength);
    r
  }

  /** fh.unpack: the type byte is given; the other eleven bytes are read
      field by field with single reads, and the first read that finds the
      buffer empty aborts with its error. */
  function Unpack(typeAndFlags: byte, s: Stream): (r: Result<(FixedHeader, Stream)>)
    ensures r.Ok? <==> |s| >= 8
    ensures r.Err? ==> r.error == EOF
    ensures r.Ok? ==> r.value.0.messageType == typeAndFlags
    ensures |s| >= 11 ==> r.Ok? && r.value.1 == s[11..]
    ensures 8 <= |s| < 11 ==> r.Ok? && r.value.1 == []
  {
    var msqSeq :- DecodeUint32(s);
    var version :- DecodeByte(msqSeq.1);
    var format :- DecodeByte(version.1);
    var flag :- DecodeByte(format.1);
    var remaining :- DecodeUint32(flag.1);
    Ok((FixedHeader(typeAndFlags, msqSeq.0, version.0, format.0, flag.0, remaining.0), remaining.1))
  }

  /** Unpacking what pack wrote reproduces the header field for field and
      consumes exactly the eleven bytes after the type byte. */
  lemma UnpackOfPack(h: FixedHeader, rest: Stream)
    ensures Unpack(Pack(h)[0], Pack(h)[1..] + rest) == Ok((h, rest))
  {
    var p := Pack(h);
    var s := p[1..] + rest;
    DecodeUint32Encoded(s[..4], s[4..], h.msqSeq);
    assert s[..4] == EncodeUint32(h.msqSeq);
    var s1 := s[4..];
    assert s1[0] == h.version && s1[1] == h.format && s1[2] == h.flag;
    var s4 := s1[3..];
    assert s4[..4] == EncodeUint32(h.remainingLength);
    assert s4[4..] == rest;
    DecodeUint32Encoded(s4[..4], rest, h.remainingLength);
    assert s4[..4] + rest == s4;
  }

  /** With all eleven bytes present, each field is read from its own slice. */
  lemma UnpackFields(typeAndFlags: byte, s: Stream)
    requires |s| >= 11
    ensures Unpack(typeAndFlags, s).Ok?
    ensures var h := Unpack(typeAndFlags, s).value.0;
      && h.msqSeq == BigEndian(s[..4])
      && h.version == s[4] && h.format == s[5] && h.flag == s[6]
      && h.remainingLength == BigEndian(s[7..11])
  {
    assert s[4..][1..][1..][1..] == s[7..];
    assert s[7..][..4] == s[7..11];
  }

  /** Conversely, the eleven bytes a successful unpack consumed are exactly
      what pack writes after the type byte. */
  lemma PackOfUnpack(typeAndFlags: byte, s: Stream)
    requires |s| >= 11
    ensures Unpack(typeAndFlags, s).Ok?
    ensures Pack(Unpack(typeAndFlags, s).value.0) == [typeAndFlags] + s[..11]
  {
    UnpackFields(typeAndFlags, s);
    var h := Unpack(typeAndFlags, s).value.0;
    EncodeUint32OfBigEndian(s[..4]);
    EncodeUint32OfBigEndian(s[7..11]);
    assert [typeAndFlags] + s[..11] == [typeAndFlags] + s[..4] + [s[4], s[5], s[6]] + s[7..11];
  }

  /** A header whose 11 bytes after the type byte stop after the eighth (the
      first RemainingLength byte) is still accepted: the four leading fields
      are read as usual, and the last single read of RemainingLength
      zero-pads what it could not get. */
  lemma UnpackTruncated(typeAndFlags: byte, s: Stream)
    requires 8 <= |s| < 11
    ensures Unpack(typeAndFlags, s).Ok?
    ensures var h := Unpack(typeAndFlags, s).value.0;
      && h.msqSeq == BigEndian(s[..4])
      && h.version == s[4] && h.format == s[5] && h.flag == s[6]
      && h.remainingLength == BigEndian(s[7..] + Zeros(11 - |s|))
  {
    assert Padded(s, 4) == s[..4];
    assert s[4..][1..][1..] == s[6..];
    var rest := s[4..][3..];
    assert rest == s[7..];
    assert Padded(rest, 4) == s[7..] + Zeros(11 - |s|);
  }
}

=== FILE: packet_laws.dfy ===
/** Laws relating Write, the factories and ReadPacket over whole packets. */
module PacketLaws {
  import opened Bytes
  import opened Errors
  import opened Results
  import opened Streams
  import opened Header
  import opened Packets
  import PingreqCodec
  import LoginreqCodec

  /** What a registered packet needs for Write followed by ReadPacket to give
      it back: a header-only packet must declare an empty body (Write does
      not reset RemainingLength), and a Loginreq's marshaller must round-trip
      its fields under the header's format. */
  predicate Readable(m: LoginreqCodec.Marshaller, p: Packet)
  {
    && Registered(p)
    && (HeaderOnly(p) ==> p.header.remainingLength == 0)
    && (p.Loginreq? ==> LoginreqCodec.RoundTrips(m, p.header.format, p.login))
  }

  /** Reading a header that pack wrote leaves the stream right after it. */
  lemma ReadHeaderOfPack(h: FixedHeader, after: Stream)
    ensures var s := Pack(h) + after;
      |s| > 0 && s[0] == h.messageType && Header.Unpack(s[0], s[1..]) == Ok((h, after))
  {
    var s := Pack(h) + after;
    assert s[1..] == Pack(h)[1..] + after;
    UnpackOfPack(h, after);
  }

  /** After a packed header, ReadPacket goes straight to the body. */
  lemma ReadPacketOfPack(m: LoginreqCodec.Marshaller, h: FixedHeader, after: Stream)
    ensures ReadPacket(m, Pack(h) + after) == ReadBody(m, h, after)
  {
    var s := Pack(h) + after;
    ReadHeaderOfPack(h, after);
    assert s[..1] == [s[0]];
    assert ReadFull(s, 1) == Ok(([s[0]], s[1..]));
  }

  /** Once the header is known, a body of exactly RemainingLength bytes is
      read whole and unpacked, and the rest of the stream is left. */
  lemma ReadBodyOfFullBody(m: LoginreqCodec.Marshaller, h: FixedHeader, body: seq<byte>, rest: Stream)
    requires h.messageType in PacketNames && |body| == h.remainingLength
    ensures var u := Packets.Unpack(m, NewControlPacketWithHeader(h).value, body);
      ReadBody(m, h, body + rest) == ReadOutcome(Some(u.packet), u.err, rest)
  {
    assert (body + rest)[..|body|] == body && (body + rest)[|body|..] == rest;
    assert ReadFull(body + rest, h.remainingLength) == Ok((body, rest));
  }

  /** A registered header followed by exactly RemainingLength body bytes is
      unpacked from exactly those bytes, and the rest of the stream is left. */
  lemma ReadFullPacket(m: LoginreqCodec.Marshaller, h: FixedHeader, body: seq<byte>, rest: Stream)
    requires h.messageType in PacketNames && |body| == h.remainingLength
    ensures var u := Packets.Unpack(m, NewControlPacketWithHeader(h).value, body);
      ReadPacket(m, Pack(h) + (body + rest)) == ReadOutcome(Some(u.packet), u.err, rest)
  {
    ReadPacketOfPack(m, h, body + rest);
    ReadBodyOfFullBody(m, h, body, rest);
  }

  /** A registered header-only packet is written as its bare header and
      read back unchanged. */
  lemma HeaderOnlyThenRead(m: LoginreqCodec.Marshaller, p: Packet, rest: Stream)
    requires Registered(p) && HeaderOnly(p) && p.header.remainingLength == 0
    ensures ReadPacket(m, Pack(p.header) + rest) == ReadOutcome(Some(p), None, rest)
  {
    var h := p.header;
    ReadFullPacket(m, h, [], rest);
    assert [] + rest == rest;
    assert NewControlPacketWithHeader(h).value == p;
  }

  /** A Loginreq whose marshaller round-trips is read back with the
      RemainingLength its Write stamped and the login it carried. */
  lemma LoginreqThenRead(m: LoginreqCodec.Marshaller, h: FixedHeader, login: LoginreqCodec.LoginReq, rest: Stream)
    requires h.messageType == LoginreqType && LoginreqCodec.RoundTrips(m, h.format, login)
    ensures LoginreqCodec.Write(m, h, login).Ok?
    ensures var w := LoginreqCodec.Write(m, h, login).value;
      ReadPacket(m, w.1 + rest) == ReadOutcome(Some(Loginreq(w.0, login)), None, rest)
  {
    var w := LoginreqCodec.Write(m, h, login).value;
    var body := w.1[HeaderSize..];
    assert w.1 + rest == Pack(w.0) + (body + rest);
    LoginreqBodyOfWrite(m, h, login);
    ReadFullPacket(m, w.0, body, rest);
  }

  /** The body a round-tripping Loginreq Write emits unpacks, from the empty
      packet ReadPacket builds, to the written login with no error. */
  lemma LoginreqBodyOfWrite(m: LoginreqCodec.Marshaller, h: FixedHeader, login: LoginreqCodec.LoginReq)
    requires h.messageType == LoginreqType && LoginreqCodec.RoundTrips(m, h.format, login)
    ensures LoginreqCodec.Write(m, h, login).Ok?
    ensures var w := LoginreqCodec.Write(m, h, login).value;
      && w.0.messageType in PacketNames && |w.1| >= HeaderSize && |w.1[HeaderSize..]| == w.0.remainingLength
      && Packets.Unpack(m, NewControlPacketWithHeader(w.0).value, w.1[HeaderSize..])
        == Unpacked(Loginreq(w.0, login), None, [])
  {
    var w := LoginreqCodec.Write(m, h, login).value;
    var body := w.1[HeaderSize..];
    LoginreqCodec.UnpackOfWrite(m, h, login, LoginreqCodec.EmptyLogin, []);
    assert body + [] == body;
    var u := LoginreqCodec.Unpack(m, w.0, LoginreqCodec.EmptyLogin, body);
    assert u.login == login && u.err == None;
  }

  /** Write then ReadPacket returns the written packet, with no error, and
      leaves whatever followed it in the stream untouched. */
  lemma WriteThenRead(m: LoginreqCodec.Marshaller, p: Packet, rest: Stream)
    requires Readable(m, p)
    ensures Write(m, p).Ok?
    ensures ReadPacket(m, Write(m, p).value.1 + rest)
      == ReadOutcome(Some(Write(m, p).value.0), None, rest)
  {
    if p.Loginreq? {
      LoginreqThenRead(m, p.header, p.login, rest);
    } else {
      HeaderOnlyThenRead(m, p, rest);
    }
  }

  /** The registry's own packets, as NewControlPacket builds them, survive
      Write and ReadPacket; the header-only ones come back unchanged, a
      Loginreq with the RemainingLength its Write stamped. */
  lemma NewPacketThenRead(m: LoginreqCodec.Marshaller, packetType: byte, rest: Stream)
    requires packetType in PacketNames
    requires packetType == LoginreqType ==>
      LoginreqCodec.RoundTrips(m, LoginreqCodec.FormatProto, LoginreqCodec.EmptyLogin)
    ensures var p := NewControlPacket(packetType).value;
      && Write(m, p).Ok?
      && ReadPacket(m, Write(m, p).value.1 + rest) == ReadOutcome(Some(Write(m, p).value.0), None, rest)
      && (packetType != LoginreqType ==> Write(m, p).value.0 == p)
  {
    WriteThenRead(m, NewControlPacket(packetType).value, rest);
  }

  /** A header-only packet whose RemainingLength is not zero is written as a
      bare header, so reading it back alone runs out of bytes for the body. */
  lemma HeaderOnlyWithLengthUnreadable(m: LoginreqCodec.Marshaller, p: Packet)
    requires Registered(p) && HeaderOnly(p) && p.header.remainingLength > 0
    ensures ReadPacket(m, Write(m, p).value.1) == ReadOutcome(None, Some(EOF), [])
  {
    var s := Pack(p.header);
    ReadPacketOfPack(m, p.header, []);
    assert s + [] == s;
  }

  /** How ReadPacket fails, by how far it got: no type byte or a header cut
      before its last field gives EOF; an unregistered type byte gives the
      unsupported-type error; a body shorter than RemainingLength gives EOF or
      UnexpectedEOF. None of these returns a packet. */
  lemma ReadPacketFailures(m: LoginreqCodec.Marshaller, s: Stream)
    ensures |s| < 9 ==> ReadPacket(m, s) == ReadOutcome(None, Some(EOF), [])
    ensures |s| >= 9 && s[0] !in PacketNames ==>
      ReadPacket(m, s).packet.None? && ReadPacket(m, s).err == Some(UnsupportedPacketType(s[0]))
    ensures |s| >= HeaderSize && s[0] in PacketNames && |s| < HeaderSize + BigEndian(s[8..12]) ==>
      ReadPacket(m, s) == ReadOutcome(None, Some(if |s| == HeaderSize then EOF else UnexpectedEOF), [])
    ensures 9 <= |s| < HeaderSize && s[0] in PacketNames && BigEndian(s[8..] + Zeros(HeaderSize - |s|)) > 0 ==>
      ReadPacket(m, s) == ReadOutcome(None, Some(EOF), [])
  {
    if 9 <= |s| < HeaderSize {
      UnpackTruncated(s[0], s[1..]);
      assert s[1..][7..] == s[8..];
    }
    if |s| >= HeaderSize {
      PackOfUnpack(s[0], s[1..]);
      var h := Header.Unpack(s[0], s[1..]).value.0;
      assert Pack(h)[8..12] == s[8..12];
      assert Header.Unpack(s[0], s[1..]).value.1 == s[HeaderSize..];
    }
  }

  /** Contrary to its doc comment, ReadPacket can return a packet and an
      error together: when the Loginreq body is read in full but does not
      unmarshal. */
  lemma UnpackErrorKeepsPacket(m: LoginreqCodec.Marshaller, h: FixedHeader, body: seq<byte>, rest: Stream)
    requires h.messageType == LoginreqType && h.remainingLength == |body|
    requires m.unmarshal(LoginreqCodec.EncodingOf(h.format), body).CodingError?
    ensures var r := ReadPacket(m, Pack(h) + (body + rest));
      && r.packet == Some(Loginreq(h, LoginreqCodec.EmptyLogin))
      && r.err == Some(EncodingFailure(m.unmarshal(LoginreqCodec.EncodingOf(h.format), body).cause))
      && r.rest == rest
  {
    ReadFullPacket(m, h, body, rest);
    assert body[..h.remainingLength] == body;
    var u := LoginreqCodec.Unpack(m, h, LoginreqCodec.EmptyLogin, body);
    assert u.login == LoginreqCodec.EmptyLogin;
    assert u.err == Some(EncodingFailure(m.unmarshal(LoginreqCodec.EncodingOf(h.format), body).cause));
  }
}

=== FILE: packets.dfy ===
/** The packet registry, the two factories, Write/Unpack dispatch over the
    closed set of variants, and ReadPacket (packets/packets.go). */
module Packets {
  import opened Bytes
  import opened Errors
  import opened Results
  import opened Streams
  import opened Codec
  import opened Header
  import PingreqCodec
  import PubackCodec
  import PublishCodec
  import LoginreqCodec

  const PingreqType: byte := 1
  const PingrespType: byte := 2
  const DisconnectType: byte := 3
  const LoginreqType: byte := 4

  /** The registry: the type tags ReadPacket can dispatch on, with their names. */
  const PacketNames: map<byte, string> := map[
    PingreqType := "PINGREQ",
    PingrespType := "PINGRESP",
    DisconnectType := "DISCONNECT",
    LoginreqType := "LOGINREQ"]

  /** The closed set of packet structs. Puback and Publish implement the same
      Write/Unpack contract but have no registry tag. */
  datatype Packet =
    | Pingreq(header: FixedHeader)
    | Pingresp(header: FixedHeader)
    | Disconnect(header: FixedHeader)
    | Loginreq(header: FixedHeader, login: LoginreqCodec.LoginReq)
    | Puback(header: FixedHeader, messageId: uint16, returnCode: byte)
    | Publish(header: FixedHeader, payload: seq<byte>)

  /** The registry tag a variant is built for, if it has one. */
  function TypeTag(p: Packet): Option<byte>
  {
    match p
    case Pingreq(_) => Some(PingreqType)
    case Pingresp(_) => Some(PingrespType)
    case Disconnect(_) => Some(DisconnectType)
    case Loginreq(_, _) => Some(LoginreqType)
    case Puback(_, _, _) => None
    case Publish(_, _) => None
  }

  /** The same variant and body fields under another header. */
  function WithHeader(p: Packet, h: FixedHeader): (q: Packet)
    ensures q.header == h && TypeTag(q) == TypeTag(p)
  {
    match p
    case Pingreq(_) => Pingreq(h)
    case Pingresp(_) => Pingresp(h)
    case Disconnect(_) => Disconnect(h)
    case Loginreq(_, login) => Loginreq(h, login)
    case Puback(_, messageId, returnCode) => Puback(h, messageId, returnCode)
    case Publish(_, payload) => Publish(h, payload)
  }

  /** Variants with no body. */
  predicate HeaderOnly(p: Packet)
  {
    p.Pingreq? || p.Pingresp? || p.Disconnect?
  }

  /** A packet whose header carries the tag of its own variant. */
  predicate Registered(p: Packet)
  {
    TypeTag(p) == Some(p.header.messageType)
  }

  /** NewControlPacket: an empty packet whose header has only its type set,
      for exactly the registered tags. */
  function NewControlPacket(packetType: byte): (r: Option<Packet>)
    ensures r.Some? <==> packetType in PacketNames
    ensures r.Some? ==> r.value.header == EmptyHeader(packetType) && Registered(r.value)
    ensures r.Some? && r.value.Loginreq? ==> r.value.login == LoginreqCodec.EmptyLogin
  {
    var h := EmptyHeader(packetType);
    if packetType == DisconnectType then Some(Disconnect(h))
    else if packetType == PingreqType then Some(Pingreq(h))
    else if packetType == PingrespType then Some(Pingresp(h))
    else if packetType == LoginreqType then Some(Loginreq(h, LoginreqCodec.EmptyLogin))
    else None
  }

  /** NewControlPacketWithHeader: an empty packet that keeps the given header
      verbatim, or the "unsupported packet type" error for an unknown tag. */
  function NewControlPacketWithHeader(fh: FixedHeader): (r: Result<Packet>)
    ensures r.Ok? <==> fh.messageType in PacketNames
    ensures r.Ok? ==> r.value.header == fh && Registered(r.value)
    ensures r.Ok? && r.value.Loginreq? ==> r.value.login == LoginreqCodec.EmptyLogin
    ensures r.Err? ==> r.error == UnsupportedPacketType(fh.messageType)
  {
    if fh.messageType == DisconnectType then Ok(Disconnect(fh))
    else if fh.messageType == PingreqType then Ok(Pingreq(fh))
    else if fh.messageType == PingrespType then Ok(Pingresp(fh))
    else if fh.messageType == LoginreqType then Ok(Loginreq(fh, LoginreqCodec.EmptyLogin))
    else Err(UnsupportedPacketType(fh.messageType))
  }

  /** The two factories accept the same tags and build the same variant;
      they differ only in the header they store. */
  lemma FactoriesAgree(fh: FixedHeader)
    ensures NewControlPacket(fh.messageType).Some? <==> NewControlPacketWithHeader(fh).Ok?
    ensures NewControlPacketWithHeader(fh).Ok? ==>
      NewControlPacketWithHeader(fh).value == WithHeader(NewControlPacket(fh.messageType).value, fh)
    ensures fh == EmptyHeader(fh.messageType) && NewControlPacketWithHeader(fh).Ok? ==>
      NewControlPacket(fh.messageType) == Some(NewControlPacketWithHeader(fh).value)
  {
  }

  /** Write: the packet as it stands after Write (which may restamp
      RemainingLength) and the bytes it emits: the packed header, then the
      body. Only a Loginreq marshal can fail. */
  function Write(m: LoginreqCodec.Marshaller, p: Packet): (r: Result<(Packet, seq<byte>)>)
    requires p.Publish? ==> |p.payload| < 0x1_0000_0000
    ensures r.Err? <==> p.Loginreq? && m.marshal(LoginreqCodec.EncodingOf(p.header.format), p.login).CodingError?
    ensures r.Err? ==> r.error == EncodingFailure(m.marshal(LoginreqCodec.EncodingOf(p.header.format), p.login).cause)
    ensures r.Ok? ==> r.value.0 == WithHeader(p, p.header.(remainingLength := r.value.0.header.remainingLength))
    ensures r.Ok? ==> |r.value.1| >= HeaderSize && r.value.1[..HeaderSize] == Pack(r.value.0.header)
    ensures r.Ok? && HeaderOnly(p) ==> r.value == (p, Pack(p.header))
    ensures r.Ok? && !HeaderOnly(p) ==>
      r.value.0.header.remainingLength == (|r.value.1| - HeaderSize) % 0x1_0000_0000
    ensures r.Ok? && p.Puback? ==> r.value.1[HeaderSize..] == EncodeUint16(p.messageId) + [p.returnCode]
    ensures r.Ok? && p.Publish? ==> r.value.1[HeaderSize..] == p.payload
    ensures r.Ok? && p.Loginreq? ==>
      r.value.1[HeaderSize..] == m.marshal(LoginreqCodec.EncodingOf(p.header.format), p.login).value
  {
    if HeaderOnly(p) then
      Ok((p, PingreqCodec.Write(p.header)))
    else
      match p
      case Loginreq(h, login) =>
        var w :- LoginreqCodec.Write(m, h, login);
        Ok((Loginreq(w.0, login), w.1))
      case Puback(h, messageId, returnCode) =>
        var w := PubackCodec.Write(h, messageId, returnCode);
        Ok((Puback(w.0, messageId, returnCode), w.1))
      case Publish(h, payload) =>
        var w := PublishCodec.Write(h, payload);
        Ok((Publish(w.0, payload), w.1))
  }

  /** What Unpack leaves: the packet with its body fields filled in, the
      error it returned, and the unread part of the body. */
  datatype Unpacked = Unpacked(packet: Packet, err: Option<Error>, rest: Stream)

  /** Unpack: the variant's body decoder. The header and the variant never change. */
  function Unpack(m: LoginreqCodec.Marshaller, p: Packet, body: Stream): (r: Unpacked)
    ensures r.packet.header == p.header
    ensures TypeTag(r.packet) == TypeTag(p) && HeaderOnly(r.packet) == HeaderOnly(p)
    ensures HeaderOnly(p) ==> r == Unpacked(p, None, body)
  {
    match p
    case Pingreq(h) => var u := PingreqCodec.Unpack(h, body); Unpacked(Pingreq(u.0), u.1, u.2)
    case Pingresp(h) => var u := PingreqCodec.Unpack(h, body); Unpacked(Pingresp(u.0), u.1, u.2)
    case Disconnect(h) => var u := PingreqCodec.Unpack(h, body); Unpacked(Disconnect(u.0), u.1, u.2)
    case Loginreq(h, login) =>
      var u := LoginreqCodec.Unpack(m, h, login, body);
      Unpacked(Loginreq(h, u.login), u.err, u.rest)
    case Puback(h, _, _) =>
      var u := PubackCodec.Unpack(body);
      Unpacked(Puback(h, u.messageId, u.returnCode), u.err, u.rest)
    case Publish(h, _) =>
      var u := PublishCodec.Unpack(h, body);
      Unpacked(Publish(h, u.payload), u.err, u.rest)
  }

  /** The variants with a body take their fields, their error and the unread
      rest from their own decoder, starting from the packet's header and, for
      a Loginreq, from its current login. */
  lemma UnpackVariants(m: LoginreqCodec.Marshaller, p: Packet, body: Stream)
    ensures p.Puback? ==> var u := PubackCodec.Unpack(body);
      Unpack(m, p, body) == Unpacked(Puback(p.header, u.messageId, u.returnCode), u.err, u.rest)
    ensures p.Publish? ==> var u := PublishCodec.Unpack(p.header, body);
      Unpack(m, p, body) == Unpacked(Publish(p.header, u.payload), u.err, u.rest)
    ensures p.Loginreq? ==> var u := LoginreqCodec.Unpack(m, p.header, p.login, body);
      Unpack(m, p, body) == Unpacked(Loginreq(p.header, u.login), u.err, u.rest)
  {
  }

  /** ReadPacket's two results, plus what is left of the stream. */
  datatype ReadOutcome = ReadOutcome(packet: Option<Packet>, err: Option<Error>, rest: Stream)

  /** ReadPacket: the type byte and the body with io.ReadFull, the header with
      single reads, the variant from NewControlPacketWithHeader. Every failure
      before Unpack returns no packet; an Unpack error comes back together
      with the packet. */
  function ReadPacket(m: LoginreqCodec.Marshaller, s: Stream): (r: ReadOutcome)
    ensures r.packet.None? ==> r.err.Some?
    ensures r.err != Some(ShortRead)
    ensures r.packet.Some? ==> |s| > 0 && r.packet.value.header.messageType == s[0]
    ensures r.packet.Some? ==> Registered(r.packet.value)
    ensures r.packet.Some? ==>
      Header.Unpack(s[0], s[1..]).Ok? && r.packet.value.header == Header.Unpack(s[0], s[1..]).value.0
    ensures r.packet.Some? && |s| >= HeaderSize ==>
      var h := r.packet.value.header;
      && s[..HeaderSize] == Pack(h)
      && HeaderSize + h.remainingLength <= |s|
      && r.rest == s[HeaderSize + h.remainingLength..]
    ensures r.packet.Some? && |s| < HeaderSize ==>
      r.packet.value.header.remainingLength == 0 && r.rest == []
  {
    match ReadFull(s, 1)
    case Err(e) => ReadOutcome(None, Some(e), s)
    case Ok(typeByte) =>
      assert typeByte.0[0] == s[0] && typeByte.1 == s[1..];
      match Header.Unpack(s[0], s[1..])
      case Err(e) => ReadOutcome(None, Some(e), [])
      case Ok(fh) => ReadAfterHeader(m, s, fh.0, fh.1)
  }

  /** ReadPacket once the header of s has been decoded to h, with `after`
      left unread. */
  function ReadAfterHeader(m: LoginreqCodec.Marshaller, s: Stream, h: FixedHeader, after: Stream): (r: ReadOutcome)
    requires |s| > 0 && Header.Unpack(s[0], s[1..]) == Ok((h, after))
    ensures r.packet.None? ==> r.err.Some?
    ensures r.err != Some(ShortRead)
    ensures r.packet.Some? ==> r.packet.value.header == h && h.messageType == s[0]
    ensures r.packet.Some? ==> Registered(r.packet.value)
    ensures r.packet.Some? && |s| >= HeaderSize ==>
      && s[..HeaderSize] == Pack(h)
      && HeaderSize + h.remainingLength <= |s|
      && r.rest == s[HeaderSize + h.remainingLength..]
    ensures r.packet.Some? && |s| < HeaderSize ==>
      r.packet.value.header.remainingLength == 0 && r.rest == []
  {
    var r := ReadBody(m, h, after);
    if r.packet.Some? then
      assert after[..h.remainingLength] + after[h.remainingLength..] == after;
      ReadPacketFraming(s, h, after[..h.remainingLength], after[h.remainingLength..]);
      r
    else
      r
  }

  /** ReadPacket once the header is known: the factory, then exactly
      RemainingLength body bytes with io.ReadFull, then Unpack. */
  function ReadBody(m: LoginreqCodec.Marshaller, fh: FixedHeader, s: Stream): (r: ReadOutcome)
    ensures r.packet.None? ==> r.err.Some?
    ensures r.err != Some(ShortRead)
    ensures r.packet.Some? ==> r.packet.value.header == fh && Registered(r.packet.value)
    ensures r.packet.Some? ==> fh.remainingLength <= |s| && r.rest == s[fh.remainingLength..]
    ensures fh.messageType !in PacketNames ==> r == ReadOutcome(None, Some(UnsupportedPacketType(fh.messageType)), s)
    ensures fh.messageType in PacketNames && |s| < fh.remainingLength ==>
      r == ReadOutcome(None, Some(if |s| == 0 then EOF else UnexpectedEOF), [])
  {
    match NewControlPacketWithHeader(fh)
    case Err(e) => ReadOutcome(None, Some(e), s)
    case Ok(cp) =>
      match ReadFull(s, fh.remainingLength)
      case Err(e) => ReadOutcome(None, Some(e), [])
      case Ok(body) =>
        if |body.0| != fh.remainingLength then
          ReadOutcome(None, Some(ShortRead), body.1)
        else
          var u := Unpack(m, cp, body.0);
          assert u.packet.header == fh && TypeTag(u.packet) == Some(fh.messageType);
          assert body.0 + body.1 == s;
          assert body.1 == s[fh.remainingLength..];
          ReadOutcome(Some(u.packet), u.err, body.1)
  }

  /** The bookkeeping behind ReadPacket's success clauses. */
  lemma ReadPacketFraming(s: Stream, h: FixedHeader, body: seq<byte>, rest: Stream)
    requires |s| > 0 && Header.Unpack(s[0], s[1..]).Ok?
    requires Header.Unpack(s[0], s[1..]).value.0 == h
    requires |body| == h.remainingLength
    requires body + rest == Header.Unpack(s[0], s[1..]).value.1
    ensures |s| >= HeaderSize ==>
      && s[..HeaderSize] == Pack(h)
      && HeaderSize + h.remainingLength <= |s|
      && rest == s[HeaderSize + h.remainingLength..]
    ensures |s| < HeaderSize ==> h.remainingLength == 0 && rest == []
  {
    if |s| >= HeaderSize {
      PackOfUnpack(s[0], s[1..]);
      assert [s[0]] + s[1..][..11] == s[..HeaderSize];
      assert s[1..][11..] == s[HeaderSize..];
    }
  }
}

=== FILE: results.dfy ===
/** Option and a Result over the packet layer's errors; both work with `:-`. */
module Results {
  import opened Errors

  datatype Option<+T> = None | Some(value: T)

  datatype Result<+T> = Ok(value: T) | Err(error: Error) {

    predicate IsFailure() {
      Err?
    }

    function PropagateFailure<U>(): Result<U>
      requires Err?
    {
      Err(error)
    }

    function Extract(): T
      requires Ok?
    {
      value
    }
  }
}

=== FILE: streams.dfy ===
/** The byte source every decoder reads from: the unread contents of a Go
    bytes.Buffer, and the two ways the code reads it. */
module Streams {
  import opened Bytes
  import opened Errors
  import opened Results

  type Stream = seq<byte>

  /** `io.ReadFull(r, make([]byte, n))`: exactly n bytes, or io.EOF when
      nothing was left and io.ErrUnexpectedEOF when only part of them was. */
  function ReadFull(s: Stream, n: nat): (r: Result<(seq<byte>, Stream)>)
    ensures r.Ok? <==> n <= |s|
    ensures r.Ok? ==> |r.value.0| == n && r.value.0 + r.value.1 == s
    ensures r.Err? ==> r.error == (if |s| == 0 then EOF else UnexpectedEOF)
  {
    if n <= |s| then Ok((s[..n], s[n..]))
    else if |s| == 0 then Err(EOF)
    else Err(UnexpectedEOF)
  }

  /** One `Read` call on a bytes.Buffer into a zeroed n-byte slice. It fails
      only when the buffer is empty and bytes were asked for; otherwise it
      copies what it can and the rest of the slice stays zero. */
  function Read(s: Stream, n: nat): (r: Result<(seq<byte>, Stream)>)
    ensures r.Err? <==> |s| == 0 && n > 0
    ensures r.Err? ==> r.error == EOF
    ensures r.Ok? && n <= |s| ==> r.value.0 + r.value.1 == s && |r.value.0| == n
    ensures r.Ok? && |s| < n ==> r.value == (s + Zeros(n - |s|), [])
  {
    if |s| == 0 && n > 0 then Err(EOF)
    else if n <= |s| then
      assert s[..n] + s[n..] == s;
      Ok((s[..n], s[n..]))
    else
      Ok((s + Zeros(n - |s|), []))
  }

  /** With enough input the two primitives agree. */
  lemma ReadAgreesWithReadFull(s: Stream, n: nat)
    requires n <= |s|
    ensures Read(s, n) == ReadFull(s, n)
  {
  }

  /** On a short, non-empty buffer they part ways: io.ReadFull fails while a
      single Read succeeds with a zero-padded result. */
  lemma ReadShortBuffer(s: Stream, n: nat)
    requires 0 < |s| < n
    ensures ReadFull(s, n) == Err(UnexpectedEOF)
    ensures Read(s, n).Ok? && Read(s, n).value.0[|s|..] == Zeros(n - |s|)
  {
    var buf := Read(s, n).value.0;
    assert buf == s + Zeros(n - |s|);
    assert buf[|s|..] == Zeros(n - |s|);
  }
}

=== FILE: utf8.dfy ===
/** UTF-8, the encoding Go gives the bytes of a string literal. A Dafny
    `char` is a Unicode scalar value, so every string has exactly one
    encoding, and `Decode` accepts exactly the encodings. */
module Utf8 {
  import opened Bytes
  import opened Results

  predicate IsContinuation(b: byte)
  {
    0x80 <= b < 0xC0
  }

  function EncodeChar(c: char): (r: seq<byte>)
    ensures 1 <= |r| <= 4
  {
    var n := c as int;
    if n < 0x80 then [n]
    else if n < 0x800 then [0xC0 + n / 0x40, 0x80 + n % 0x40]
    else if n < 0x1_0000 then [0xE0 + n / 0x1000, 0x80 + n / 0x40 % 0x40, 0x80 + n % 0x40]
    else [0xF0 + n / 0x4_0000, 0x80 + n / 0x1000 % 0x40, 0x80 + n / 0x40 % 0x40, 0x80 + n % 0x40]
  }

  /** The scalar value a two-, three- or four-byte sequence carries in its payload bits. */
  function Payload2(b0: byte, b1: byte): int
  {
    (b0 as int - 0xC0) * 0x40 + (b1 as int - 0x80)
  }

  function Payload3(b0: byte, b1: byte, b2: byte): int
  {
    (b0 as int - 0xE0) * 0x1000 + (b1 as int - 0x80) * 0x40 + (b2 as int - 0x80)
  }

  function Payload4(b0: byte, b1: byte, b2: byte, b3: byte): int
  {
    (b0 as int - 0xF0) * 0x4_0000 + (b1 as int - 0x80) * 0x1000 + (b2 as int - 0x80) * 0x40 + (b3 as int - 0x80)
  }

  lemma EncodeOfPayload2(b0: byte, b1: byte)
    requires 0xC0 <= b0 < 0xE0 && IsContinuation(b1) && 0x80 <= Payload2(b0, b1)
    ensures EncodeChar(Payload2(b0, b1) as char) == [b0, b1]
  {
    var n := Payload2(b0, b1);
    assert n / 0x40 == b0 - 0xC0 && n % 0x40 == b1 - 0x80;
  }

  lemma EncodeOfPayload3(b0: byte, b1: byte, b2: byte)
    requires 0xE0 <= b0 < 0xF0 && IsContinuation(b1) && IsContinuation(b2)
    requires 0x800 <= Payload3(b0, b1, b2) && !(0xD800 <= Payload3(b0, b1, b2) < 0xE000)
    ensures EncodeChar(Payload3(b0, b1, b2) as char) == [b0, b1, b2]
  {
    var n := Payload3(b0, b1, b2);
    assert n / 0x1000 == b0 - 0xE0;
    assert n / 0x40 == (b0 as int - 0xE0) * 0x40 + (b1 as int - 0x80);
    assert n / 0x40 % 0x40 == b1 - 0x80 && n % 0x40 == b2 - 0x80;
  }

  lemma EncodeOfPayload4(b0: byte, b1: byte, b2: byte, b3: byte)
    requires 0xF0 <= b0 < 0xF8 && IsContinuation(b1) && IsContinuation(b2) && IsContinuation(b3)
    requires 0x1_0000 <= Payload4(b0, b1, b2, b3) < 0x11_0000
    ensures EncodeChar(Payload4(b0, b1, b2, b3) as char) == [b0, b1, b2, b3]
  {
    var n := Payload4(b0, b1, b2, b3);
    assert n / 0x4_0000 == b0 - 0xF0;
    assert n / 0x1000 == (b0 as int - 0xF0) * 0x40 + (b1 as int - 0x80);
    assert n / 0x1000 % 0x40 == b1 - 0x80;
    assert n / 0x40 == ((b0 as int - 0xF0) * 0x40 + (b1 as int - 0x80)) * 0x40 + (b2 as int - 0x80);
    assert n / 0x40 % 0x40 == b2 - 0x80 && n % 0x40 == b3 - 0x80;
  }

  /** Reads one scalar value off the front of b, rejecting overlong forms,
      surrogates and values past U+10FFFF; returns it with its byte count. */
  function DecodeChar(b: seq<byte>): (r: Option<(char, nat)>)
    ensures r.Some? ==> 1 <= r.value.1 <= |b| && b[..r.value.1] == EncodeChar(r.value.0)
  {
    if |b| == 0 then None
    else if b[0] < 0x80 then
      Some((b[0] as char, 1))
    else if 0xC0 <= b[0] < 0xE0 && |b| >= 2 && IsContinuation(b[1]) then
      var n := Payload2(b[0], b[1]);
      if 0x80 <= n then
        EncodeOfPayload2(b[0], b[1]);
        Some((n as char, 2))
      else None
    else if 0xE0 <= b[0] < 0xF0 && |b| >= 3 && IsContinuation(b[1]) && IsContinuation(b[2]) then
      var n := Payload3(b[0], b[1], b[2]);
      if 0x800 <= n && !(0xD800 <= n < 0xE000) then
        EncodeOfPayload3(b[0], b[1], b[2]);
        Some((n as char, 3))
      else None
    else if 0xF0 <= b[0] < 0xF8 && |b| >= 4
      && IsContinuation(b[1]) && IsContinuation(b[2]) && IsContinuation(b[3]) then
      var n := Payload4(b[0], b[1], b[2], b[3]);
      if 0x1_0000 <= n < 0x11_0000 then
        EncodeOfPayload4(b[0], b[1], b[2], b[3]);
        Some((n as char, 4))
      else None
    else None
  }

  function Encode(s: string): (r: seq<byte>)
    ensures |s| <= |r| <= 4 * |s|
  {
    if s == [] then [] else EncodeChar(s[0]) + Encode(s[1..])
  }

  lemma EncodeCons(c: char, t: string)
    ensures Encode([c] + t) == EncodeChar(c) + Encode(t)
  {
    assert ([c] + t)[0] == c && ([c] + t)[1..] == t;
  }

  lemma SplitAt(b: seq<byte>, k: nat)
    requires k <= |b|
    ensures b == b[..k] + b[k..]
  {
  }

  /** The string whose encoding b is, if b is well-formed UTF-8. */
  function Decode(b: seq<byte>): (r: Option<string>)
    ensures r.Some? ==> Encode(r.value) == b
    decreases |b|
  {
    if b == [] then Some([])
    else match DecodeChar(b)
      case None => None
      case Some((c, k)) =>
        match Decode(b[k..])
        case None => None
        case Some(t) =>
          EncodeCons(c, t);
          SplitAt(b, k);
          Some([c] + t)
  }

  lemma PayloadOfEncoded2(n: int)
    requires 0x80 <= n < 0x800
    ensures Payload2(0xC0 + n / 0x40, 0x80 + n % 0x40) == n
  {
  }

  lemma PayloadOfEncoded3(n: int)
    requires 0x800 <= n < 0x1_0000
    ensures 0xE0 <= 0xE0 + n / 0x1000 < 0xF0
    ensures Payload3(0xE0 + n / 0x1000, 0x80 + n / 0x40 % 0x40, 0x80 + n % 0x40) == n
  {
    assert n / 0x40 == n / 0x1000 * 0x40 + n / 0x40 % 0x40;
  }

  lemma PayloadOfEncoded4(n: int)
    requires 0x1_0000 <= n < 0x11_0000
    ensures 0xF0 <= 0xF0 + n / 0x4_0000 < 0xF8
    ensures Payload4(0xF0 + n / 0x4_0000, 0x80 + n / 0x1000 % 0x40, 0x80 + n / 0x40 % 0x40, 0x80 + n % 0x40) == n
  {
    assert n / 0x1000 == n / 0x4_0000 * 0x40 + n / 0x1000 % 0x40;
    assert n / 0x40 == n / 0x1000 * 0x40 + n / 0x40 % 0x40;
  }

  /** Every character's encoding decodes back to it, whatever follows. */
  lemma DecodeCharOfEncoded(c: char, rest: seq<byte>)
    ensures DecodeChar(EncodeChar(c) + rest) == Some((c, |EncodeChar(c)|))
  {
    var n := c as int;
    var b := EncodeChar(c) + rest;
    if n < 0x80 {
    } else if n < 0x800 {
      PayloadOfEncoded2(n);
      assert Payload2(b[0], b[1]) == n;
    } else if n < 0x1_0000 {
      PayloadOfEncoded3(n);
      assert Payload3(b[0], b[1], b[2]) == n;
    } else {
      PayloadOfEncoded4(n);
      assert Payload4(b[0], b[1], b[2], b[3]) == n;
    }
  }

  /** Decoding inverts encoding. */
  lemma {:induction false} DecodeOfEncode(s: string)
    ensures Decode(Encode(s)) == Some(s)
  {
    if s != [] {
      var b := Encode(s);
      var e := EncodeChar(s[0]);
      DecodeCharOfEncoded(s[0], Encode(s[1..]));
      assert b[|e|..] == Encode(s[1..]);
      DecodeOfEncode(s[1..]);
      assert [s[0]] + s[1..] == s;
    }
  }

  /** So a byte string decodes to s exactly when it is s's encoding. */
  lemma DecodeIffEncode(b: seq<byte>, s: string)
    ensures Decode(b) == Some(s) <==> Encode(s) == b
  {
    if Encode(s) == b {
      DecodeOfEncode(s);
    }
  }
}

=== FILE: variants.dfy ===
/** PingreqPacket (packets/pingreq.go): a header with no body. Pingresp and
    Disconnect are assumed to behave the same way. */
module PingreqCodec {
  import opened Bytes
  import opened Errors
  import opened Results
  import opened Streams
  import opened Header

  /** Write emits the packed header alone and leaves the header as it was;
      RemainingLength is not reset. */
  function Write(h: FixedHeader): (out: seq<byte>)
    ensures out == Pack(h)
    ensures Header.Unpack(out[0], out[1..]) == Ok((h, []))
  {
    UnpackOfPack(h, []);
    assert Pack(h)[1..] + [] == Pack(h)[1..];
    Pack(h)
  }

  /** Unpack reads nothing and changes nothing, whatever the body holds. */
  function Unpack(h: FixedHeader, body: Stream): (r: (FixedHeader, Option<Error>, Stream))
    ensures r.0 == h && r.1.None? && r.2 == body
  {
    (h, None, body)
  }
}

/** PubackPacket (packets/puback.go): a 3-byte body, the message id as a
    big-endian uint16 then the return code. */
module PubackCodec {
  import opened Bytes
  import opened Errors
  import opened Results
  import opened Streams
  import opened Codec
  import opened Header

  const BodySize: uint32 := 3

  datatype Fields = Fields(messageId: uint16, returnCode: byte, err: Option<Error>, rest: Stream)

  /** Write stamps RemainingLength 3 whatever it was, then emits the header,
      the message id and the return code. */
  function Write(h: FixedHeader, messageId: uint16, returnCode: byte): (r: (FixedHeader, seq<byte>))
    ensures r.0 == h.(remainingLength := BodySize)
    ensures |r.1| == HeaderSize + BodySize as nat
    ensures r.1[..HeaderSize] == Pack(r.0)
    ensures BigEndian(r.1[12..14]) == messageId && r.1[14] == returnCode
    ensures r.1[HeaderSize..] == EncodeUint16(messageId) + [returnCode]
  {
    var h' := h.(remainingLength := BodySize);
    var out := Pack(h') + EncodeUint16(messageId) + [returnCode];
    assert out[12..14] == EncodeUint16(messageId);
    (h', out)
  }

  /** Unpack reads the message id, then the return code. Go overwrites the
      first read's error with the second's, so the error reported is always
      the return-code read's: EOF exactly when the body is shorter than 3
      bytes. A short body leaves zero bytes where the reads found none. */
  function Unpack(body: Stream): (r: Fields)
    ensures r.err.None? <==> |body| >= 3
    ensures r.err.Some? ==> r.err.value == EOF && r.returnCode == 0 && r.rest == []
    ensures |body| >= 3 ==> body[..3] == EncodeUint16(r.messageId) + [r.returnCode] && r.rest == body[3..]
    ensures |body| == 0 ==> r.messageId == 0
    ensures |body| == 1 ==> r.messageId == body[0] as int * 0x100
    ensures |body| == 2 ==> r.messageId == BigEndian(body)
  {
    var (messageId, afterId) := match DecodeUint16(body)
      case Ok(v) => v
      case Err(_) => (0, body);
    var (returnCode, rest, err) := match DecodeByte(afterId)
      case Ok(v) => (v.0, v.1, None)
      case Err(e) => (0, afterId, Some(e));
    if |body| >= 3 then
      DecodeUint16Encoded(body[..2], body[2..], messageId);
      assert body[..2] + body[2..] == body;
      assert body[..3] == body[..2] + [body[2]];
      Fields(messageId, returnCode, err, rest)
    else
      BigEndianOfTwo(Padded(body, 2));
      Fields(messageId, returnCode, err, rest)
  }

  /** Unpacking the body Write produced restores the message id and the
      return code and consumes exactly the 3 body bytes. */
  lemma UnpackOfWrite(h: FixedHeader, messageId: uint16, returnCode: byte, rest: Stream)
    ensures Unpack(Write(h, messageId, returnCode).1[HeaderSize..] + rest)
      == Fields(messageId, returnCode, None, rest)
  {
    var body := Write(h, messageId, returnCode).1[HeaderSize..];
    assert body == EncodeUint16(messageId) + [returnCode];
    var s := body + rest;
    assert s[..2] == EncodeUint16(messageId) && s[2..] == [returnCode] + rest;
    DecodeUint16Encoded(s[..2], s[2..], messageId);
    assert s[..2] + s[2..] == s;
  }
}

/** PublishPacket (packets/publish.go): the body is the payload verbatim,
    sized by RemainingLength. */
module PublishCodec {
  import opened Bytes
  import opened Errors
  import opened Results
  import opened Streams
  import opened Header

  datatype Fields = Fields(payload: seq<byte>, err: Option<Error>, rest: Stream)

  /** Write stamps the payload length into RemainingLength, changes nothing
      else, and emits the header followed by the payload. The source assigns
      `len(Payload)` to a uint32 field without a conversion; the evident
      intent is a payload that fits in 32 bits. */
  function Write(h: FixedHeader, payload: seq<byte>): (r: (FixedHeader, seq<byte>))
    requires |payload| < 0x1_0000_0000
    ensures r.0 == h.(remainingLength := |payload|)
    ensures |r.1| == HeaderSize + |payload|
    ensures r.1[..HeaderSize] == Pack(r.0) && r.1[HeaderSize..] == payload
  {
    var h' := h.(remainingLength := |payload|);
    (h', Pack(h') + payload)
  }

  /** Unpack replaces the payload by a fresh RemainingLength-byte buffer
      filled by one read: the bytes the body has, zeros past its end, and
      EOF only when the body is empty but bytes were expected. The
      negative-length guard can never fire on an unsigned length. */
  function Unpack(h: FixedHeader, body: Stream): (r: Fields)
    ensures |r.payload| == h.remainingLength
    ensures r.err.Some? <==> |body| == 0 && h.remainingLength > 0
    ensures r.err.Some? ==> r.err.value == EOF
    ensures r.err != Some(NegativeLength)
    ensures |body| >= h.remainingLength ==>
      r.payload == body[..h.remainingLength] && r.rest == body[h.remainingLength..]
    ensures |body| < h.remainingLength ==> r.payload == body + Zeros(h.remainingLength - |body|)
  {
    var payloadLength: int := h.remainingLength;
    if payloadLength < 0 then
      Fields([], Some(NegativeLength), body)
    else
      match Read(body, payloadLength)
      case Ok(v) => Fields(v.0, None, v.1)
      case Err(e) => Fields(Zeros(payloadLength), Some(e), body)
  }

  /** Unpacking exactly the body Write emitted restores the payload. */
  lemma UnpackOfWrite(h: FixedHeader, payload: seq<byte>, rest: Stream)
    requires |payload| < 0x1_0000_0000
    ensures var w := Write(h, payload);
      Unpack(w.0, w.1[HeaderSize..] + rest) == Fields(payload, None, rest)
  {
    var w := Write(h, payload);
    var s := w.1[HeaderSize..] + rest;
    assert s[..|payload|] == payload && s[|payload|..] == rest;
  }
}

/** LoginreqPacket (packets/loginreq.go). Its body is a JSON or protobuf
    encoding produced by foreign libraries, so the two directions of that
    encoding are parameters here: a pair of functions chosen by the header's
    format byte. */
module LoginreqCodec {
  import opened Bytes
  import opened Errors
  import opened Results
  import opened Streams
  import opened Codec
  import opened Header

  const FormatProto: byte := 0
  const FormatJson: byte := 1

  /** The fields of protocol.LoginReq that the packet carries. */
  datatype LoginReq = LoginReq(userId: GoString, token: GoString)

  const EmptyLogin := LoginReq([], [])

  datatype Encoding = Proto | Json

  /** The one decision both Write and Unpack take from the format byte. */
  function EncodingOf(format: byte): (e: Encoding)
    ensures e == Json <==> format == FormatJson
  {
    if format == FormatJson then Json else Proto
  }

  /** What a foreign codec call returns: a value, or its error message. */
  datatype Coded<+T> = Coded(value: T) | CodingError(cause: string)

  /** json/proto Marshal and Unmarshal, as an uninterpreted pair. */
  datatype Marshaller = Marshaller(
    marshal: (Encoding, LoginReq) -> Coded<seq<byte>>,
    unmarshal: (Encoding, seq<byte>) -> Coded<LoginReq>)

  /** The marshaller round-trips this login under this format, and the
      encoding fits the 32-bit RemainingLength. */
  predicate RoundTrips(m: Marshaller, format: byte, login: LoginReq)
  {
    var e := EncodingOf(format);
    && m.marshal(e, login).Coded?
    && |m.marshal(e, login).value| < 0x1_0000_0000
    && m.unmarshal(e, m.marshal(e, login).value) == Coded(login)
  }

  /** Write marshals with the encoding the format byte selects, stamps the
      encoded length truncated to 32 bits as `uint32(len(bytes))` does, and
      emits header then body. A marshal error is returned before anything
      is written. */
  function Write(m: Marshaller, h: FixedHeader, login: LoginReq): (r: Result<(FixedHeader, seq<byte>)>)
    ensures r.Err? <==> m.marshal(EncodingOf(h.format), login).CodingError?
    ensures r.Err? ==> r.error == EncodingFailure(m.marshal(EncodingOf(h.format), login).cause)
    ensures r.Ok? ==> var body := m.marshal(EncodingOf(h.format), login).value;
      && r.value.0 == h.(remainingLength := |body| % 0x1_0000_0000)
      && r.value.1 == Pack(r.value.0) + body
      && r.value.1[HeaderSize..] == body
  {
    match m.marshal(EncodingOf(h.format), login)
    case CodingError(cause) => Err(EncodingFailure(cause))
    case Coded(body) =>
      var h' := h.(remainingLength := |body| % 0x1_0000_0000);
      assert (Pack(h') + body)[HeaderSize..] == body;
      Ok((h', Pack(h') + body))
  }

  datatype Fields = Fields(login: LoginReq, err: Option<Error>, rest: Stream)

  /** Unpack reads RemainingLength bytes with one read and unmarshals them
      with the encoding the format byte selects. On any error the login
      fields are left as they were. */
  function Unpack(m: Marshaller, h: FixedHeader, login: LoginReq, body: Stream): (r: Fields)
    ensures r.err.Some? ==> r.err.value == EOF || r.err.value.EncodingFailure?
    ensures |body| == 0 && h.remainingLength > 0 ==> r == Fields(login, Some(EOF), body)
    ensures |body| >= h.remainingLength ==>
      var decoded := m.unmarshal(EncodingOf(h.format), body[..h.remainingLength]);
      && r.rest == body[h.remainingLength..]
      && r.login == (if decoded.Coded? then decoded.value else login)
      && r.err == (if decoded.Coded? then None else Some(EncodingFailure(decoded.cause)))
  {
    var payloadLength: int := h.remainingLength;
    if payloadLength < 0 then
      Fields(login, Some(NegativeLength), body)
    else
      match Read(body, payloadLength)
      case Err(e) => Fields(login, Some(e), body)
      case Ok(v) =>
        match m.unmarshal(EncodingOf(h.format), v.0)
        case Coded(decoded) => Fields(decoded, None, v.1)
        case CodingError(cause) => Fields(login, Some(EncodingFailure(cause)), v.1)
  }

  /** Because Write and Unpack select the encoding from the same format
      byte, a marshaller that round-trips makes the packet body round-trip. */
  lemma UnpackOfWrite(m: Marshaller, h: FixedHeader, login: LoginReq, before: LoginReq, rest: Stream)
    requires RoundTrips(m, h.format, login)
    ensures Write(m, h, login).Ok?
    ensures var w := Write(m, h, login).value;
      Unpack(m, w.0, before, w.1[HeaderSize..] + rest) == Fields(login, None, rest)
  {
    var w := Write(m, h, login).value;
    var body := m.marshal(EncodingOf(h.format), login).value;
    var s := w.1[HeaderSize..] + rest;
    assert w.0.remainingLength == |body|;
    assert s[..|body|] == body && s[|body|..] == rest;
  }
}

=== FILE: vectors.dfy ===
/** Concrete instances of the codecs and of ReadPacket: the values the
    repository's tests pin down (packets/packets_test.go), and two framing
    corner cases of ReadPacket. */
module Vectors {
  import opened Bytes
  import opened Errors
  import opened Results
  import opened Streams
  import opened Codec
  import opened Header
  import opened Packets
  import Utf8
  import LoginreqCodec
  import PacketLaws

  /** The registry's tags and names. */
  lemma RegistryEntries()
    ensures PacketNames[PingreqType] == "PINGREQ" && PacketNames[PingrespType] == "PINGRESP"
    ensures PacketNames[DisconnectType] == "DISCONNECT" && PacketNames[LoginreqType] == "LOGINREQ"
    ensures PingreqType == 1 && PingrespType == 2 && DisconnectType == 3 && LoginreqType == 4
  {
  }

  /** decodeByte, decodeUint16 and encodeUint16 on the bytes 0x56 0x78. */
  lemma SmallIntegerVectors()
    ensures DecodeByte([0x56]) == Ok((0x56, []))
    ensures DecodeUint16([0x56, 0x78]) == Ok((22136, []))
    ensures EncodeUint16(22136) == [0x56, 0x78]
  {
    DecodeUint16Encoded([0x56, 0x78], [], 22136);
  }

  /** The 32-bit table: each length and its four big-endian bytes, both ways. */
  lemma Uint32Vectors()
    ensures EncodeUint32(0) == [0x00, 0x00, 0x00, 0x00]
    ensures EncodeUint32(127) == [0x00, 0x00, 0x00, 0x7F]
    ensures EncodeUint32(32769) == [0x00, 0x00, 0x80, 0x01]
    ensures EncodeUint32(65407) == [0x00, 0x00, 0xFF, 0x7F]
    ensures EncodeUint32(8421377) == [0x00, 0x80, 0x80, 0x01]
    ensures EncodeUint32(16777087) == [0x00, 0xFF, 0xFF, 0x7F]
    ensures EncodeUint32(2155905025) == [0x80, 0x80, 0x80, 0x01]
    ensures EncodeUint32(4294967167) == [0xFF, 0xFF, 0xFF, 0x7F]
    ensures DecodeUint32([0x80, 0x80, 0x80, 0x01]) == Ok((2155905025, []))
    ensures DecodeUint32([0xFF, 0xFF, 0xFF, 0x7F]) == Ok((4294967167, []))
  {
    DecodeUint32Encoded([0x80, 0x80, 0x80, 0x01], [], 2155905025);
    DecodeUint32Encoded([0xFF, 0xFF, 0xFF, 0x7F], [], 4294967167);
  }

  /** encodeString on an ASCII word, a byte-order mark and a supplementary
      ideograph: the 2-byte length counts UTF-8 bytes, not characters. */
  lemma AsciiStringVector()
    ensures EncodeString(Utf8.Encode("foo")) == [0x00, 0x03, 0x66, 0x6F, 0x6F]
  {
    assert Utf8.Encode("foo") == [0x66, 0x6F, 0x6F];
    assert EncodeUint16(3) == [0x00, 0x03];
  }

  lemma ByteOrderMarkVector()
    ensures EncodeString(Utf8.Encode("\U{FEFF}")) == [0x00, 0x03, 0xEF, 0xBB, 0xBF]
  {
    assert Utf8.Encode("\U{FEFF}") == [0xEF, 0xBB, 0xBF];
    assert EncodeUint16(3) == [0x00, 0x03];
  }

  lemma SupplementaryStringVector()
    ensures EncodeString(Utf8.Encode("A\U{2A6D4}")) == [0x00, 0x05, 0x41, 0xF0, 0xAA, 0x9B, 0x94]
  {
    assert Utf8.Encode("A\U{2A6D4}") == [0x41, 0xF0, 0xAA, 0x9B, 0x94];
    assert EncodeUint16(5) == [0x00, 0x05];
  }

  /** The message NewControlPacketWithHeader reports for an unknown tag. */
  lemma UnsupportedTypeMessage()
    ensures Text(UnsupportedPacketType(0xEE)) == "unsupported packet type 0xee"
  {
    assert Hex(0xEE) == "ee";
  }

  /** Nine bytes are enough for ReadPacket: a PINGREQ type byte and eight
      zero bytes give a Pingreq whose RemainingLength the last read padded to
      zero. */
  lemma TruncatedHeaderAccepted(m: LoginreqCodec.Marshaller)
    ensures ReadPacket(m, [1, 0, 0, 0, 0, 0, 0, 0, 0])
      == ReadOutcome(Some(Pingreq(EmptyHeader(PingreqType))), None, [])
  {
    var s: seq<byte> := [1, 0, 0, 0, 0, 0, 0, 0, 0];
    assert s[..1] == [1];
    var h := Header.Unpack(1, s[1..]);
    UnpackTruncated(1, s[1..]);
    assert s[1..][7..] == [0];
    assert Zeros(3) == [0, 0, 0];
    BigEndianOfFour([0, 0, 0, 0]);
    assert h == Ok((EmptyHeader(PingreqType), []));
  }

  /** A LOGINREQ header announcing five body bytes, followed by only two,
      fails with UnexpectedEOF and no packet. */
  lemma TruncatedBodyRejected(m: LoginreqCodec.Marshaller)
    ensures ReadPacket(m, [4, 0, 0, 0, 0, 0, 0, 0, 0, 0, 0, 5, 0xAB, 0xCD])
      == ReadOutcome(None, Some(UnexpectedEOF), [])
  {
    var s: seq<byte> := [4, 0, 0, 0, 0, 0, 0, 0, 0, 0, 0, 5, 0xAB, 0xCD];
    BigEndianOfFour(s[8..12]);
    PacketLaws.ReadPacketFailures(m, s);
  }
}
